=== FILE: README.md ===
# R2Funktion kanban: a Dafny model of its request handlers and client logic

R2Funktion is a small kanban tracker. An Express/Mongoose backend stores
projects, and each project embeds an ordered list of tasks. A browser script
creates projects and tasks, shows a project's tasks in three columns
(`todo`, `in-progress`, `done`) and deletes tasks by position.

This project models both halves as pure functions over immutable datatypes:

- `JsValues` (jsvalues.dfy) holds the JavaScript values that cross the wire.
  A body field is missing, `null` or a string (`Field`). `Truthy` is
  JavaScript truthiness on those values. `Interpolate` is what a template
  literal makes of a field.
- `Schema` (schema.dfy) is the Mongoose `Project` schema. It covers the task
  subdocument and the cast from a request body. Optional string paths keep
  strings only. `status` defaults to `todo` only when the field is absent.
  Mongoose's required-validator (`ValidTask`, `ValidProject`) rejects a
  missing or empty name.
- `Server` (server.dfy) models the collection as a
  `Store`: a map from id to project, plus one fixed listing order (the
  insertion order). An unsorted `find()` has no order MongoDB promises; the
  model picks this one. Each route is a function `(store, request) -> (response, store')`.
  The covered routes are `GET /projects`, `POST /projects` and
  `POST /projects/:id/tasks`. `Handle` dispatches between them, and answers
  a task request with an empty `:id` with Express's own 404, since that path
  matches no route. The
  ObjectId generator is an oracle, passed in as the parameter `newId`. All
  the oracle guarantees is `FreshFor`: the id is non-empty and unused. Every
  route preserves the collection invariant `Valid`.
- `JsString` (jsstring.dfy) models `String.prototype.trim` with ECMAScript's
  white-space and line-terminator set.
- `JsArray` (jsarray.dfy) models `Array.prototype.splice(start, 1)`,
  including a negative `start`.
- `Board` (board.dfy) models `renderTasks` as a pure partition into three
  columns of `Card(index, task)`. `IsColumn` is the independent description
  of a column, and `Column` is the loop's construction of it.
- `Client` (client.dfy) models the controller. It covers the pre-flight
  checks and payloads of `addProject` and `addTask`, and `fetchJSON`. It also
  covers the selection update of `loadProject` and the splice-and-`PUT` of
  `deleteTask`. A user action yields an `Effect`: a prompt, a request with its
  payload, or nothing.
- `EndToEnd` (endtoend.dfy) connects the two halves. What the client sends is
  what the handlers accept. What the handlers answer is what `fetchJSON`
  reports. A task added through the client shows up in the right column.

The code has no `priority` or `deadline` field, no route that updates or
deletes a task or a project, no separate 400 answer for a malformed id, and
no sorting of tasks before they are rendered; the model has none of these
either.

## Model

| member | source | states |
|---|---|---|
| Schema.CastTask | reason2funk-backend/server.js:21-29 | a cast task passes the required-name validator exactly when the body's name is truthy, and then keeps that name; an absent status becomes `todo`, `null` stays unset, a sent status is kept; each optional field stores the string sent and nothing otherwise |
| Schema.CastStatus | reason2funk-backend/server.js:27 | the stored status is `todo` exactly when the field was absent or was `todo`; it is unset exactly when `null` was sent; a sent string is stored as is |
| JsValues.Truthy | reason2funk-backend/server.js:49 | JavaScript truthiness on an absent, `null` or string field: `undefined`, `null` and `""` are the falsy values and every other string is truthy (`!name`, `!task.name`, `currentProjectId`) |
| JsValues.Interpolate | app.js:98 | a template literal puts a truthy id into the URL as its own text |
| Server.ListProjects | reason2funk-backend/server.js:36-39 | `GET /projects` answers 200 with one entry per stored project, in the store's fixed listing order, and leaves the store unchanged |
| Server.ListIsExactlyTheStore | reason2funk-backend/server.js:38-39 | each listed project is stored under its own id, and each stored project is listed |
| Server.CreateProject | reason2funk-backend/server.js:46-60 | a falsy name gives 400 with the store unchanged; a body task without a name fails validation with 500 and the store unchanged; otherwise 201 returns the one new project under the new id, with the request's name, and the store gains exactly that entry; the invariant is kept |
| Server.AddTask | reason2funk-backend/server.js:62-83 | for the non-empty ids the route delivers: a falsy task name gives 400 whatever the id; a truthy name with an unknown id gives 404; on both the store is unchanged; otherwise 201 returns the parent, whose list is the old list plus the cast task at the end; every other project is identical; the invariant is kept |
| Server.AddedTaskFields | reason2funk-backend/server.js:24-27 | the appended task has the sent name; status is `todo` when the field is absent, unset when `null` was sent, the sent string otherwise; each optional field stores exactly the string sent, and nothing when none was sent |
| Server.Handle | reason2funk-backend/server.js:36-83 | every route keeps the collection invariant; statuses are only 200/201/400/404/500; `GET /projects` goes to `ListProjects` and does not change the store; the key set stays the same or gains only the new id; a task request with an empty `:id` matches no route and is 404 with the store unchanged; other task requests and project creations go to their handlers |
| Server.HandleOnlyGrows | reason2funk-backend/server.js:53-77 | no route removes a project, renames one, or changes a stored task: task lists only grow at the end |
| JsString.Trim | app.js:46 | the trimmed string is the slice between leading and trailing white space, with a non-white character at each end |
| JsString.TrimEmptyIffAllWhite | app.js:46-47 | the trimmed input is empty exactly when every character is white space |
| JsString.TrimIdempotent | app.js:46 | trimming an already trimmed input changes nothing, so the name `addProject` sends is already in trimmed form |
| Client.FetchJson | app.js:21-27 | a non-ok status (outside 200..299) is an error carrying that status; only an ok response yields its body |
| Client.AddProject | app.js:45-62 | a request is made exactly when the input has a non-white character, with payload `{name: trimmed, tasks: []}` whose name is unchanged by a further trim; otherwise the project-name prompt |
| Client.OrNull | app.js:103-104 | `x \|\| null` on a trimmed string is `null` exactly when it is empty and the string otherwise |
| Client.AddTask | app.js:77-121 | a request is made exactly when the trimmed task name is non-empty and a project is selected; it goes to the selected id; a blank assignee/link is `null` and a non-blank one is sent trimmed; a missing or empty image is `null` and any other is sent as read; status is always `todo` |
| Client.NoTaskBeforeSelection | app.js:18 | with the initial `currentProjectId = null`, `addTask` only prompts and posts nothing, whatever the inputs |
| Client.LoadProject | app.js:65-75 | on an ok response the fetched project's id becomes the selection and its tasks fill the three columns; on failure the view, selection included, is unchanged |
| Client.DeleteTask | app.js:184-197 | a `PUT` is issued exactly when the re-fetch succeeds; an in-range index removes exactly that task, keeping the rest in order; an index past the end leaves the list unchanged |
| JsArray.SpliceOne | app.js:187 | splice removes one element exactly when the clamped start is inside the array, and never adds elements |
| JsArray.ActualStart | app.js:187 | the position splice starts at: an in-range start as is, a start past the end clamped to the length, a negative start counted back from the end and clamped at 0 |
| JsArray.SpliceInRange | app.js:187 | an in-range index removes exactly the element at that index: earlier elements stay in place, later ones shift down by one, the multiset loses exactly that element |
| JsArray.SpliceReinsert | app.js:187 | reinserting the removed element at its index restores the original array |
| JsArray.SpliceNegative | app.js:187 | a negative index removes the element that many places from the end |
| JsArray.SpliceOutOfRange | app.js:187 | an index at or past the end leaves the array unchanged |
| Board.Column | app.js:128-180 | the loop-built column for a status holds exactly the tasks with that status, each tagged with its own index, in input order |
| Board.Render | app.js:123-182 | each of the three columns is the column of its status (`todo`, `in-progress`, `done`) |
| Board.RenderPartitions | app.js:174-180 | a task with one of the three statuses appears exactly once across the columns; a task with any other status or none appears nowhere |
| Board.ColumnUnique | app.js:128-180 | any sequence meeting the column description equals the loop-built column |
| EndToEnd.ClientProjectAccepted | reason2funk-backend/server.js:48-55 | a payload from `addProject` is always created (201), named by the trimmed input, with no tasks |
| EndToEnd.ClientTaskNeverRejected | reason2funk-backend/server.js:67-78 | a payload from `addTask` goes to a non-empty id and is never refused with 400; it is 404 exactly when the selected id is not stored; a stored task carries the trimmed name, status `todo`, nothing for a blank assignee/link and the trimmed text otherwise, nothing for a missing or empty image and the image data otherwise |
| EndToEnd.FetchSeesServerOutcome | app.js:22-26 | through `fetchJSON` a route succeeds exactly on 200/201, and a mutating route succeeds exactly when it changed the collection |
| EndToEnd.ColumnAppend | app.js:128-180 | appending a task extends exactly the column of its status, by one card carrying the new index |
| EndToEnd.AddedTaskRendersLastInTodo | app.js:98-113 | after a task from `addTask` is stored, the returned project renders it as the last `todo` card, and the other columns are unchanged |
| EndToEnd.SelectThenAddTask | app.js:69-83 | after loading a stored project, a non-blank task name is posted to exactly that project |
| EndToEnd.DeleteCardRemovesItsTask | app.js:169-187 | a card's delete button removes exactly that card's task from the array sent back |

## Left out

- Server.CreateProject: a request body that supplies its own `_id` is not modelled. Mongoose would store the project under that id instead of a generated one, and `save()` would fail with 500 on a duplicate or malformed one. The client never sends an `_id`, and the new project is always filed under the generated `newId`.
- Server.ListProjects: the listing is in insertion order because the model fixes one order. MongoDB leaves the order of an unsorted `find()` unspecified, so the real server does not promise this order.
- MongoDB connection, `dotenv`, `process.exit`, CORS and JSON middleware, the default error handler and `app.listen` (reason2funk-backend/server.js:1-16, 85-93): process and framework plumbing. The collection is the `Store` value.
- Timestamps (reason2funk-backend/server.js:30) and real ObjectId generation. Ids are opaque strings, and the generator is the `newId` parameter with the freshness guarantee `FreshFor`. Subdocument `_id`s of tasks are not modelled, because no modelled code reads them.
- Internal errors other than the validation failure on `POST /projects`. Examples are database failures and the `CastError` that `findById` raises on a malformed id (both answered 500 by the catch blocks). Ids are abstract, so they have no malformed form.
- Request-body values other than absent, `null` and strings (numbers, booleans, objects, arrays). Mongoose would cast or reject these. `Field` has no such values.
- Schema.CastTask: an absent optional field and one sent as `null` are both stored as `None`. Mongoose keeps the `null`, but the client treats both as falsy.
- Routes the client calls that this server does not define: `GET /projects/:id` in `loadProject` and `PUT /projects/:id` in `deleteTask` (app.js:67, 186-192). Their responses are parameters of `Client.LoadProject` and `Client.DeleteTask`. Against this server alone, Express would answer both with 404.
- DOM construction, CSS classes, `alert` text shown to the user, `console.error`, event-listener wiring, clearing the input fields (app.js:54, 109-112) and `renderProjects` (app.js:30-43): presentation only.
- The `FileReader` image read (app.js:85-91), `fetch` itself, JSON parse failures of `response.json()`, and the reloads chained after a successful request (app.js:55, 113, 193). These are asynchrony and I/O. The image read's result is the `imageDataUrl` parameter, and a reload is a further `Client.LoadProject` call.
- Client.AddTask: the JavaScript reads `currentProjectId` again when the asynchronous save runs. The model uses the value checked at the click. The two differ only if another load completes in between, a race the model does not represent.
- The read-modify-write race in `deleteTask` (app.js:186-192) and any other interleaving of overlapping requests: concurrency.

=== FILE: board.dfy ===
/** `renderTasks` without the DOM: the task array is walked once, in order,
    and each task is appended to the column its `status` names, tagged with
    its index in the array (the index the card's delete button passes on). */
module Board {
  import opened JsValues
  import opened Schema

  const Todo: string := "todo"
  const InProgress: string := "in-progress"
  const Done: string := "done"

  /** A rendered list item: the task and its position in the project's array. */
  datatype Card = Card(index: nat, task: Task)

  /** The three kanban columns. */
  datatype Columns = Columns(todo: seq<Card>, inProgress: seq<Card>, done: seq<Card>)

  /** Every card of `col` shows the task at its own index, and that task has status `s`. */
  ghost predicate CardsMatch(tasks: seq<Task>, s: string, col: seq<Card>)
  {
    forall k :: 0 <= k < |col| ==>
      col[k].index < |tasks| && col[k].task == tasks[col[k].index] && col[k].task.status == Some(s)
  }

  /** The cards of `col` appear in strictly increasing index order. */
  ghost predicate InIndexOrder(col: seq<Card>)
  {
    forall j, k :: 0 <= j < k < |col| ==> col[j].index < col[k].index
  }

  /** Every task with status `s` has a card in `col`. */
  ghost predicate Covers(tasks: seq<Task>, s: string, col: seq<Card>)
  {
    forall i :: 0 <= i < |tasks| && tasks[i].status == Some(s) ==>
      exists k :: 0 <= k < |col| && col[k].index == i
  }

  /** `col` is the column for status `s`: exactly the tasks whose status is
      `s`, each tagged with its own index, in increasing index order. */
  ghost predicate IsColumn(tasks: seq<Task>, s: string, col: seq<Card>)
  {
    CardsMatch(tasks, s, col) && InIndexOrder(col) && Covers(tasks, s, col)
  }

  /** The column for status `s`, built the way the `forEach` loop builds it:
      the column of all but the last task, then the last task if it matches. */
  function Column(tasks: seq<Task>, s: string): (col: seq<Card>)
    ensures IsColumn(tasks, s, col)
    ensures |col| <= |tasks|
  {
    if tasks == [] then []
    else
      var n := |tasks| - 1;
      var prev := Column(tasks[..n], s);
      ColumnExtend(tasks, s, prev);
      if tasks[n].status == Some(s) then prev + [Card(n, tasks[n])] else prev
  }

  /** One step of the loop: a column of all but the last task, extended by the
      last task when it has status `s`, is the column of all tasks. */
  lemma ColumnExtend(tasks: seq<Task>, s: string, prev: seq<Card>)
    requires tasks != [] && IsColumn(tasks[..|tasks| - 1], s, prev)
    ensures var n := |tasks| - 1;
      IsColumn(tasks, s, if tasks[n].status == Some(s) then prev + [Card(n, tasks[n])] else prev)
  {
    var n := |tasks| - 1;
    var col := if tasks[n].status == Some(s) then prev + [Card(n, tasks[n])] else prev;
    assert forall k :: 0 <= k < |prev| ==> col[k] == prev[k];
    assert |col| == |prev| + 1 ==> col[|prev|] == Card(n, tasks[n]);
    assert CardsMatch(tasks, s, col) by {
      assert forall k :: 0 <= k < |prev| ==> prev[k].index < n && tasks[prev[k].index] == tasks[..n][prev[k].index];
    }
    assert InIndexOrder(col) by {
      assert forall k :: 0 <= k < |prev| ==> prev[k].index < n;
    }
    assert Covers(tasks, s, col) by {
      forall i | 0 <= i < |tasks| && tasks[i].status == Some(s)
        ensures exists k :: 0 <= k < |col| && col[k].index == i
      {
        if i < n {
          assert tasks[..n][i] == tasks[i];
          var k :| 0 <= k < |prev| && prev[k].index == i;
          assert col[k].index == i;
        } else {
          assert col[|prev|].index == i;
        }
      }
    }
  }

  /** `renderTasks(tasks)`: every task whose status is `todo`, `in-progress`
      or `done` lands in that column; any other status (or none) is dropped. */
  function Render(tasks: seq<Task>): (b: Columns)
    ensures IsColumn(tasks, Todo, b.todo)
    ensures IsColumn(tasks, InProgress, b.inProgress)
    ensures IsColumn(tasks, Done, b.done)
  {
    Columns(Column(tasks, Todo), Column(tasks, InProgress), Column(tasks, Done))
  }

  /** The three columns hold the task at index `i` once in total when its
      status is one of the three, and not at all otherwise. */
  ghost function Occurrences(b: Columns, i: nat): nat
  {
    |set k | 0 <= k < |b.todo| && b.todo[k].index == i|
    + |set k | 0 <= k < |b.inProgress| && b.inProgress[k].index == i|
    + |set k | 0 <= k < |b.done| && b.done[k].index == i|
  }

  /** Within one column an index occurs at most once, and at least once when
      the task at that index has the column's status. */
  lemma ColumnCount(tasks: seq<Task>, s: string, col: seq<Card>, i: nat)
    requires IsColumn(tasks, s, col) && i < |tasks|
    ensures var ks := set k | 0 <= k < |col| && col[k].index == i;
      |ks| == if tasks[i].status == Some(s) then 1 else 0
  {
    var ks := set k | 0 <= k < |col| && col[k].index == i;
    if tasks[i].status == Some(s) {
      var k0 :| 0 <= k0 < |col| && col[k0].index == i;
      assert ks == {k0};
    } else {
      assert ks == {};
    }
  }

  /** The partition property of `renderTasks`: each task with a known status
      is shown exactly once, in the column of its status; others not at all. */
  lemma RenderPartitions(tasks: seq<Task>, i: nat)
    requires i < |tasks|
    ensures var st := tasks[i].status;
      Occurrences(Render(tasks), i) ==
        if st == Some(Todo) || st == Some(InProgress) || st == Some(Done) then 1 else 0
  {
    var b := Render(tasks);
    ColumnCount(tasks, Todo, b.todo, i);
    ColumnCount(tasks, InProgress, b.inProgress, i);
    ColumnCount(tasks, Done, b.done, i);
  }

  /** `IsColumn` pins the column down: the only sequence satisfying it is the
      one the loop builds. */
  lemma {:induction false} ColumnUnique(tasks: seq<Task>, s: string, col: seq<Card>)
    requires IsColumn(tasks, s, col)
    ensures col == Column(tasks, s)
  {
    if tasks == [] {
      assert col == [] || col[0].index < |tasks|;
    } else {
      var n := |tasks| - 1;
      var init := ColumnDropLast(tasks, s, col);
      ColumnUnique(tasks[..n], s, init);
    }
  }

  /** Read backwards, one step of the loop: a column of all tasks is a column
      of all but the last, plus a card for the last task when it matches. */
  lemma ColumnDropLast(tasks: seq<Task>, s: string, col: seq<Card>) returns (init: seq<Card>)
    requires tasks != [] && IsColumn(tasks, s, col)
    ensures IsColumn(tasks[..|tasks| - 1], s, init)
    ensures var n := |tasks| - 1;
      col == if tasks[n].status == Some(s) then init + [Card(n, tasks[n])] else init
  {
    var n := |tasks| - 1;
    if tasks[n].status == Some(s) {
      var k :| 0 <= k < |col| && col[k].index == n;
      assert forall j :: 0 <= j < |col| - 1 ==> col[j].index < col[|col| - 1].index;
      assert col[|col| - 1].index == n;
      init := col[..|col| - 1];
      assert col == init + [Card(n, tasks[n])];
    } else {
      init := col;
      assert forall k :: 0 <= k < |col| ==> col[k].index != n;
    }
    ColumnPrefix(tasks, s, col, init);
  }

  /** The cards of a column that come before any card for the last task form
      the column of the shorter array. */
  lemma ColumnPrefix(tasks: seq<Task>, s: string, col: seq<Card>, init: seq<Card>)
    requires tasks != [] && IsColumn(tasks, s, col)
    requires init <= col
    requires forall k :: 0 <= k < |init| ==> init[k].index < |tasks| - 1
    requires forall k :: |init| <= k < |col| ==> col[k].index == |tasks| - 1
    ensures IsColumn(tasks[..|tasks| - 1], s, init)
  {
  }
}

=== FILE: client.dfy ===
/** The browser controller's decision logic: which requests it issues and
    with which JSON payloads, how it reads responses, and the one piece of
    session state it keeps (the selected project). DOM updates are reduced to
    the values they display. */
module Client {
  import opened JsValues
  import opened Schema
  import opened JsString
  import opened JsArray
  import opened Board

  /** A `fetch` response as the controller sees it: the status and the parsed body. */
  datatype HttpResponse<T> = HttpResponse(status: int, body: T)

  /** `response.ok` (Fetch standard): the status is in 200..299. */
  predicate Ok<T>(r: HttpResponse<T>)
  {
    200 <= r.status <= 299
  }

  /** What `fetchJSON` resolves to: the parsed body, or the error it throws. */
  datatype Fetched<T> = Parsed(value: T) | HttpError(status: int)

  /** `fetchJSON`: any non-ok response is an error carrying its status; only an
      ok response yields its body. */
  function FetchJson<T>(r: HttpResponse<T>): (f: Fetched<T>)
    ensures f.Parsed? <==> Ok(r)
    ensures f.Parsed? ==> f.value == r.body
    ensures f.HttpError? ==> f.status == r.status && !(200 <= f.status <= 299)
  {
    if !Ok(r) then HttpError(r.status) else Parsed(r.body)
  }

  /** What one user action makes the controller do next. */
  datatype Effect =
    | Alert(message: string)
    | PostProject(projectBody: ProjectBody)
    | PostTask(projectId: string, taskBody: TaskBody)
    | PutProject(projectId: string, project: Project)
    | NoRequest

  const EnterProjectName: string := "Please enter a project name."
  const EnterTaskName: string := "Please enter a task name and select a project."

  /** The part of the page the controller maintains: the selected project
      (`currentProjectId`), its heading, the three columns and whether the
      task section is shown. */
  datatype View = View(
    currentProjectId: Field,
    currentProjectName: string,
    columns: Columns,
    taskSectionVisible: bool)

  /** The page as it is first loaded: no project selected. */
  const InitialView: View := View(Null, "", Columns([], [], []), false)

  /** `addProject`: a request only when the trimmed input is non-empty, and
      then with the trimmed name and an empty task list; otherwise the prompt. */
  function AddProject(input: string): (e: Effect)
    ensures e.PostProject? || e == Alert(EnterProjectName)
    ensures e.PostProject? <==> !AllWhite(input)
    ensures e.PostProject? ==>
      && e.projectBody.name == Text(Trim(input))
      && Truthy(e.projectBody.name)
      && Trim(e.projectBody.name.s) == e.projectBody.name.s
      && e.projectBody.tasks == Some([])
  {
    TrimEmptyIffAllWhite(input);
    TrimIdempotent(input);
    var name := Trim(input);
    if name != "" then PostProject(ProjectBody(Text(name), Some([])))
    else Alert(EnterProjectName)
  }

  /** `assignedTo || null` on an already trimmed input. */
  function OrNull(s: string): (f: Field)
    ensures Truthy(f) <==> s != ""
    ensures f.Null? <==> s == ""
    ensures f.Text? ==> f.s == s
  {
    if s != "" then Text(s) else Null
  }

  /** `addTask`: a request only when the trimmed task name is non-empty and a
      project is selected; the payload nulls the empty optional fields and
      always asks for status `todo`. `imageDataUrl` is what the file read
      produced (`None` when no file was chosen). */
  function AddTask(current: Field, taskInput: string, assignedToInput: string,
                   linkInput: string, imageDataUrl: Option<string>): (e: Effect)
    ensures e.PostTask? || e == Alert(EnterTaskName)
    ensures e.PostTask? <==> !AllWhite(taskInput) && Truthy(current)
    ensures e.PostTask? ==>
      && e.projectId == current.s
      && e.taskBody.name == Text(Trim(taskInput))
      && Truthy(e.taskBody.name)
      && (e.taskBody.assignedTo == if AllWhite(assignedToInput) then Null else Text(Trim(assignedToInput)))
      && (e.taskBody.link == if AllWhite(linkInput) then Null else Text(Trim(linkInput)))
      && (e.taskBody.image ==
            if imageDataUrl.None? || imageDataUrl.value == "" then Null else Text(imageDataUrl.value))
      && e.taskBody.status == Text(Todo)
  {
    TrimEmptyIffAllWhite(taskInput);
    TrimEmptyIffAllWhite(assignedToInput);
    TrimEmptyIffAllWhite(linkInput);
    var taskName := Trim(taskInput);
    if taskName != "" && Truthy(current) then
      var image := if imageDataUrl.Some? then imageDataUrl.value else "";
      PostTask(Interpolate(current), TaskBody(
        Text(taskName),
        OrNull(Trim(assignedToInput)),
        OrNull(Trim(linkInput)),
        OrNull(image),
        Text(Todo)))
    else
      Alert(EnterTaskName)
  }

  /** Before any project has been loaded, `currentProjectId` is `null`, so
      adding a task only prompts and sends nothing. */
  lemma NoTaskBeforeSelection(taskInput: string, assignedToInput: string,
                              linkInput: string, imageDataUrl: Option<string>)
    ensures AddTask(InitialView.currentProjectId, taskInput, assignedToInput, linkInput, imageDataUrl)
      == Alert(EnterTaskName)
  {
  }

  /** `loadProject`: on success the project becomes the selected one and its
      tasks are rendered; on failure the view, selection included, is kept. */
  function LoadProject(v: View, r: HttpResponse<Project>): (v': View)
    ensures !Ok(r) ==> v' == v
    ensures Ok(r) ==>
      && v'.currentProjectId == Text(r.body.id)
      && v'.currentProjectName == r.body.name
      && v'.taskSectionVisible
      && IsColumn(r.body.tasks, Todo, v'.columns.todo)
      && IsColumn(r.body.tasks, InProgress, v'.columns.inProgress)
      && IsColumn(r.body.tasks, Done, v'.columns.done)
  {
    match FetchJson(r)
    case Parsed(p) => View(Text(p.id), p.name, Render(p.tasks), true)
    case HttpError(_) => v
  }

  /** `deleteTask(taskIndex)`: re-fetch the selected project, splice the task
      at `taskIndex` out of its array, and send the whole project back with
      `PUT`; a failed fetch only logs. */
  function DeleteTask(current: Field, fetched: HttpResponse<Project>, taskIndex: int): (e: Effect)
    ensures e.PutProject? <==> Ok(fetched)
    ensures !Ok(fetched) ==> e == NoRequest
    ensures e.PutProject? ==>
      && e.projectId == Interpolate(current)
      && e.project.id == fetched.body.id
      && e.project.name == fetched.body.name
      && (0 <= taskIndex < |fetched.body.tasks| ==>
            e.project.tasks == fetched.body.tasks[..taskIndex] + fetched.body.tasks[taskIndex + 1..])
      && (taskIndex >= |fetched.body.tasks| ==> e.project.tasks == fetched.body.tasks)
  {
    match FetchJson(fetched)
    case Parsed(p) =>
      PutProject(Interpolate(current), p.(tasks := SpliceOne(p.tasks, taskIndex)))
    case HttpError(_) => NoRequest
  }
}

=== FILE: endtoend.dfy ===
/** How the two halves fit together: what the controller sends is what the
    route handlers accept, and what they answer is what the controller shows. */
module EndToEnd {
  import opened JsValues
  import opened Schema
  import opened JsString
  import opened Board
  import Server
  import Client

  /** A project name that passes the controller's check is never refused by
      `POST /projects`: the project is created under the new id, named by the
      trimmed input, with no tasks. */
  lemma ClientProjectAccepted(input: string, st: Server.Store, newId: Id)
    requires Server.Valid(st) && Server.FreshFor(st, newId)
    requires !AllWhite(input)
    ensures var o := Server.CreateProject(st, Client.AddProject(input).projectBody, newId);
      && o.response.status == 201
      && o.response.body.project == Project(newId, Trim(input), [])
      && newId in o.store.docs
  {
  }

  /** A task that passes the controller's check is never refused with 400:
      it is 404 exactly when the selected id is not stored, and otherwise the
      appended task carries the trimmed name, status `todo`, nothing for each
      blank optional input, and the trimmed text (the image data) otherwise.
      The selected id is never empty, so the request always reaches the handler. */
  lemma ClientTaskNeverRejected(st: Server.Store, current: Field, taskInput: string,
                                assignedToInput: string, linkInput: string, imageDataUrl: Option<string>)
    requires Server.Valid(st)
    requires !AllWhite(taskInput) && Truthy(current)
    ensures var e := Client.AddTask(current, taskInput, assignedToInput, linkInput, imageDataUrl);
      var o := Server.AddTask(st, e.projectId, e.taskBody);
      && e.projectId != ""
      && o.response.status != 400
      && (o.response.status == 404 <==> current.s !in st.docs)
      && (o.response.status == 201 ==>
            var ts := o.response.body.project.tasks;
            var t := ts[|ts| - 1];
            && t.name == Trim(taskInput)
            && t.status == Some(Todo)
            && (t.assignedTo == if AllWhite(assignedToInput) then None else Some(Trim(assignedToInput)))
            && (t.link == if AllWhite(linkInput) then None else Some(Trim(linkInput)))
            && (t.image ==
                  if imageDataUrl.None? || imageDataUrl.value == "" then None else Some(imageDataUrl.value)))
  {
  }

  /** Seen through `fetchJSON`, a route succeeds exactly when its status is
      200 or 201, and a mutating route succeeds exactly when it changed the
      collection. */
  lemma FetchSeesServerOutcome(st: Server.Store, req: Server.Request, newId: Id)
    requires Server.Valid(st) && Server.FreshFor(st, newId)
    ensures var o := Server.Handle(st, req, newId);
      var f := Client.FetchJson(Client.HttpResponse(o.response.status, o.response.body));
      && (f.Parsed? <==> o.response.status in {200, 201})
      && (!req.GetProjects? ==> (f.Parsed? <==> o.store != st))
  {
  }

  /** Appending a task extends exactly the column of its status, with a card
      carrying the new task's index; the other columns are unchanged. */
  lemma ColumnAppend(tasks: seq<Task>, t: Task, s: string)
    ensures Column(tasks + [t], s) ==
      Column(tasks, s) + (if t.status == Some(s) then [Card(|tasks|, t)] else [])
  {
  }

  /** After a task added through the controller is stored, rendering the
      returned project shows it as the last card of the `todo` column, tagged
      with its index, and leaves the other two columns as they were. */
  lemma AddedTaskRendersLastInTodo(st: Server.Store, current: Field, taskInput: string,
                                   assignedToInput: string, linkInput: string, imageDataUrl: Option<string>)
    requires Server.Valid(st)
    requires !AllWhite(taskInput) && Truthy(current)
    requires current.s in st.docs
    ensures var e := Client.AddTask(current, taskInput, assignedToInput, linkInput, imageDataUrl);
      var p' := Server.AddTask(st, e.projectId, e.taskBody).response.body.project;
      var before := Render(st.docs[current.s].tasks);
      var after := Render(p'.tasks);
      && after.todo == before.todo + [Card(|st.docs[current.s].tasks|, p'.tasks[|p'.tasks| - 1])]
      && after.inProgress == before.inProgress
      && after.done == before.done
  {
    var e := Client.AddTask(current, taskInput, assignedToInput, linkInput, imageDataUrl);
    var p := st.docs[current.s];
    var t := CastTask(e.taskBody);
    assert Server.AddTask(st, e.projectId, e.taskBody).response.body.project.tasks == p.tasks + [t];
    ColumnAppend(p.tasks, t, Todo);
    ColumnAppend(p.tasks, t, InProgress);
    ColumnAppend(p.tasks, t, Done);
  }

  /** Selecting a stored project makes it the target of the next task: after
      a successful load, a non-blank task name is posted to that project. */
  lemma SelectThenAddTask(st: Server.Store, v: Client.View, k: Id, taskInput: string,
                          assignedToInput: string, linkInput: string, imageDataUrl: Option<string>)
    requires Server.Valid(st) && k in st.docs
    ensures var v' := Client.LoadProject(v, Client.HttpResponse(200, st.docs[k]));
      var e := Client.AddTask(v'.currentProjectId, taskInput, assignedToInput, linkInput, imageDataUrl);
      && (e.PostTask? <==> !AllWhite(taskInput))
      && (e.PostTask? ==> e.projectId == k)
  {
  }

  /** Deleting through a card's button removes exactly that card's task from
      the array sent back, provided the re-fetched project is the one rendered. */
  lemma DeleteCardRemovesItsTask(p: Project, current: Field, s: string, c: Card)
    requires c in Column(p.tasks, s)
    ensures var e := Client.DeleteTask(current, Client.HttpResponse(200, p), c.index);
      && e.PutProject?
      && |e.project.tasks| == |p.tasks| - 1
      && e.project.tasks[..c.index] + [c.task] + e.project.tasks[c.index..] == p.tasks
  {
  }
}

=== FILE: jsarray.dfy ===
/** `Array.prototype.splice(start, 1)` on an immutable sequence: remove at
    most one element, at `start` counted from the front, or from the back when
    `start` is negative. */
module JsArray {

  /** The position ECMAScript's splice actually starts at: a negative `start`
      counts back from the end (clamped at 0), a large one is clamped at the length. */
  function ActualStart<T>(s: seq<T>, start: int): (k: nat)
    ensures k <= |s|
    ensures 0 <= start <= |s| ==> k == start
    ensures start > |s| ==> k == |s|
    ensures -|s| <= start < 0 ==> k == |s| + start
    ensures start < -|s| ==> k == 0
  {
    if start < 0 then (if |s| + start < 0 then 0 else |s| + start)
    else if start > |s| then |s| else start
  }

  /** `s.splice(start, 1)` — the array it leaves behind. */
  function SpliceOne<T>(s: seq<T>, start: int): (r: seq<T>)
    ensures |r| == if ActualStart(s, start) < |s| then |s| - 1 else |s|
    ensures multiset(r) <= multiset(s)
  {
    var k := ActualStart(s, start);
    if k < |s| then
      assert s == s[..k] + [s[k]] + s[k + 1..];
      s[..k] + s[k + 1..]
    else s
  }

  /** An in-range index removes exactly that element: one fewer element, the
      others unchanged and in order. */
  lemma SpliceInRange<T>(s: seq<T>, i: int)
    requires 0 <= i < |s|
    ensures |SpliceOne(s, i)| == |s| - 1
    ensures forall j :: 0 <= j < i ==> SpliceOne(s, i)[j] == s[j]
    ensures forall j :: i <= j < |s| - 1 ==> SpliceOne(s, i)[j] == s[j + 1]
    ensures multiset(SpliceOne(s, i)) + multiset{s[i]} == multiset(s)
  {
    assert s == s[..i] + [s[i]] + s[i + 1..];
  }

  /** Putting the removed element back where it was restores the array. */
  lemma SpliceReinsert<T>(s: seq<T>, i: int)
    requires 0 <= i < |s|
    ensures var r := SpliceOne(s, i); r[..i] + [s[i]] + r[i..] == s
  {
  }

  /** A negative index removes the element that many places from the end. */
  lemma SpliceNegative<T>(s: seq<T>, i: int)
    requires -|s| <= i < 0
    ensures SpliceOne(s, i) == s[..|s| + i] + s[|s| + i + 1..]
  {
  }

  /** An index at or past the end removes nothing. */
  lemma SpliceOutOfRange<T>(s: seq<T>, i: int)
    requires i >= |s|
    ensures SpliceOne(s, i) == s
  {
  }
}

=== FILE: jsstring.dfy ===
/** `String.prototype.trim` as the client uses it to pre-check its inputs. */
module JsString {

  /** ECMAScript WhiteSpace and LineTerminator code points: TAB, VT, FF, SP,
      NBSP, ZWNBSP, the other space separators (Zs), LF, CR, LS and PS. */
  predicate IsWhite(c: char)
  {
    || c == '\t' || c == '\U{000B}' || c == '\U{000C}' || c == ' '
    || c == '\U{00A0}' || c == '\U{FEFF}' || c == '\U{1680}'
    || ('\U{2000}' <= c <= '\U{200A}')
    || c == '\U{202F}' || c == '\U{205F}' || c == '\U{3000}'
    || c == '\n' || c == '\r' || c == '\U{2028}' || c == '\U{2029}'
  }

  predicate AllWhite(s: string)
  {
    forall i :: 0 <= i < |s| ==> IsWhite(s[i])
  }

  /** Drops the leading white space: the result is the suffix of `s` that
      starts at its first non-white character. */
  function TrimStart(s: string): (r: string)
    ensures |r| <= |s| && r == s[|s| - |r|..]
    ensures AllWhite(s[..|s| - |r|])
    ensures r == [] || !IsWhite(r[0])
  {
    if s == [] || !IsWhite(s[0]) then s else TrimStart(s[1..])
  }

  /** Drops the trailing white space: the result is the prefix of `s` that
      ends at its last non-white character. */
  function TrimEnd(s: string): (r: string)
    ensures |r| <= |s| && r == s[..|r|]
    ensures AllWhite(s[|r|..])
    ensures r == [] || !IsWhite(r[|r| - 1])
  {
    if s == [] || !IsWhite(s[|s| - 1]) then s else TrimEnd(s[..|s| - 1])
  }

  /** `s.trim()`: the slice of `s` between its leading and trailing white
      space, with a non-white character at each end. */
  function Trim(s: string): (r: string)
    ensures exists i :: (0 <= i <= |s| - |r| && r == s[i..i + |r|]
                         && AllWhite(s[..i]) && AllWhite(s[i + |r|..]))
    ensures r == [] || (!IsWhite(r[0]) && !IsWhite(r[|r| - 1]))
  {
    var a := TrimStart(s);
    var r := TrimEnd(a);
    var i := |s| - |a|;
    assert a == s[i..];
    assert r == s[i..i + |r|];
    assert s[i + |r|..] == a[|r|..];
    assert AllWhite(s[..i]);
    r
  }

  /** The trimmed input is empty exactly when the input is all white space
      (in particular when it is empty). */
  lemma TrimEmptyIffAllWhite(s: string)
    ensures Trim(s) == [] <==> AllWhite(s)
  {
  }

  /** Trimming twice is trimming once. */
  lemma TrimIdempotent(s: string)
    ensures Trim(Trim(s)) == Trim(s)
  {
  }
}

=== FILE: jsvalues.dfy ===
/** The few JavaScript values the kanban app passes around: optional results,
    the request-body fields the server reads, and JavaScript truthiness. */
module JsValues {

  /** An optional value; `None` stands for a field that is absent or `null`. */
  datatype Option<+T> = None | Some(value: T)

  /** Identifiers are the opaque strings MongoDB issues (`_id`). */
  type Id = string

  /** A string-typed JavaScript value that may be unset: a field of a JSON
      request body as the server sees it (not sent at all, sent as `null`, or
      sent as a string), or a client-side variable such as the selected
      project's id (`undefined`, `null`, or a string such as `project._id`). */
  datatype Field = Missing | Null | Text(s: string)

  /** JavaScript truthiness restricted to `Field`: `undefined`, `null` and the
      empty string are falsy, every other string is truthy. */
  predicate Truthy(f: Field)
    ensures Truthy(f) <==> f != Missing && f != Null && f != Text("")
  {
    f.Text? && f.s != ""
  }

  /** The text a field contributes when the JavaScript program interpolates it
      into a URL with a template literal. */
  function Interpolate(f: Field): (r: string)
    ensures Truthy(f) ==> r == f.s
  {
    match f
    case Missing => "undefined"
    case Null => "null"
    case Text(s) => s
  }
}

=== FILE: schema.dfy ===
/** The Mongoose `Project` schema: a project owns an ordered list of embedded
    tasks; both carry a required `name`; a task's `status` defaults to `todo`. */
module Schema {
  import opened JsValues

  /** The status Mongoose fills in when a task is created without one. */
  const DefaultStatus: string := "todo"

  /** An embedded task document as stored. `status` is `None` only when the
      client explicitly sent `null` (Mongoose applies defaults to `undefined` only). */
  datatype Task = Task(
    name: string,
    assignedTo: Option<string>,
    link: Option<string>,
    image: Option<string>,
    status: Option<string>)

  /** A project document as stored and as serialised to the client. */
  datatype Project = Project(id: Id, name: string, tasks: seq<Task>)

  /** The JSON body of a task-creating request: the schema's own string keys
      (unknown keys are dropped by the strict schema; a client-supplied `_id`
      is not part of this model). */
  datatype TaskBody = TaskBody(
    name: Field,
    assignedTo: Field,
    link: Field,
    image: Field,
    status: Field)

  /** The JSON body of `POST /projects`; `tasks` is `None` when the key is
      absent. A body-supplied `_id` is not part of this model. */
  datatype ProjectBody = ProjectBody(name: Field, tasks: Option<seq<TaskBody>>)

  /** Casting an optional `String` path: a string is kept, `undefined`/`null` store nothing. */
  function CastOptional(f: Field): Option<string>
  {
    if f.Text? then Some(f.s) else None
  }

  /** Casting the `status` path, which has a default: Mongoose fills it in
      only when the field is `undefined`; `null` is stored as sent. */
  function CastStatus(f: Field): (r: Option<string>)
    ensures r == Some(DefaultStatus) <==> f.Missing? || f == Text(DefaultStatus)
    ensures r.None? <==> f.Null?
    ensures f.Text? ==> r == Some(f.s)
  {
    match f
    case Missing => Some(DefaultStatus)
    case Null => None
    case Text(s) => Some(s)
  }

  /** Casting a request body into a task subdocument. A name that is not a
      string casts to the empty string here, which the required-validator
      (`ValidTask`) rejects exactly as it rejects `undefined`, `null` and `""`. */
  function CastTask(b: TaskBody): (t: Task)
    ensures ValidTask(t) <==> Truthy(b.name)
    ensures Truthy(b.name) ==> t.name == b.name.s
    ensures b.status.Missing? ==> t.status == Some(DefaultStatus)
    ensures b.status.Null? ==> t.status == None
    ensures b.status.Text? ==> t.status == Some(b.status.s)
    ensures t.assignedTo == if b.assignedTo.Text? then Some(b.assignedTo.s) else None
    ensures t.link == if b.link.Text? then Some(b.link.s) else None
    ensures t.image == if b.image.Text? then Some(b.image.s) else None
  {
    Task(
      if b.name.Text? then b.name.s else "",
      CastOptional(b.assignedTo),
      CastOptional(b.link),
      CastOptional(b.image),
      CastStatus(b.status))
  }

  /** Mongoose's `required: true` on a `String` path: the value must be a non-empty string. */
  predicate ValidTask(t: Task)
  {
    t.name != ""
  }

  /** A project passes schema validation on `save()`. */
  predicate ValidProject(p: Project)
  {
    && p.name != ""
    && forall i :: 0 <= i < |p.tasks| ==> ValidTask(p.tasks[i])
  }
}

=== FILE: server.dfy ===
/** The Express route handlers of the backend, each a pure function from the
    store and a request to a response and the next store. The MongoDB
    collection is a map from id to project plus one fixed listing order
    (insertion order; MongoDB itself leaves the order of an unsorted `find()`
    unspecified). */
module Server {
  import opened JsValues
  import opened Schema

  /** The `projects` collection. */
  datatype Store = Store(order: seq<Id>, docs: map<Id, Project>)

  /** What the collection always satisfies: every document is listed exactly
      once, is stored under its own non-empty id, and passed validation. */
  predicate Valid(st: Store)
  {
    && (forall i, j :: 0 <= i < j < |st.order| ==> st.order[i] != st.order[j])
    && (forall i :: 0 <= i < |st.order| ==> st.order[i] in st.docs)
    && (forall k :: k in st.docs ==> k in st.order)
    && (forall k :: k in st.docs ==> k != "" && st.docs[k].id == k && ValidProject(st.docs[k]))
  }

  /** What the id oracle (MongoDB's ObjectId generator) guarantees: a
      non-empty id that no stored document uses yet. */
  predicate FreshFor(st: Store, id: Id)
  {
    id != "" && id !in st.docs
  }

  /** The JSON payload of a response. */
  datatype Body =
    | One(project: Project)
    | Many(projects: seq<Project>)
    | Error(message: string)
    | NoRoute

  datatype Response = Response(status: int, body: Body)

  /** A handler's result: what is sent back and the collection afterwards. */
  datatype Outcome = Outcome(response: Response, store: Store)

  /** The three routes the backend defines. */
  datatype Request =
    | GetProjects
    | PostProject(projectBody: ProjectBody)
    | PostTask(id: Id, taskBody: TaskBody)

  const ProjectNameRequired: string := "Project name is required"
  const TaskNameRequired: string := "Task name is required"
  const ProjectNotFound: string := "Project not found"
  const InternalServerError: string := "Internal server error"

  /** `GET /projects`: every stored project, in collection order, with status 200. */
  function ListProjects(st: Store): (o: Outcome)
    requires Valid(st)
    ensures o.store == st
    ensures o.response.status == 200 && o.response.body.Many?
    ensures |o.response.body.projects| == |st.order|
    ensures forall i :: 0 <= i < |st.order| ==> o.response.body.projects[i] == st.docs[st.order[i]]
  {
    Outcome(Response(200, Many(seq(|st.order|, i requires 0 <= i < |st.order| => st.docs[st.order[i]]))), st)
  }

  /** The listing holds exactly the stored projects: each listed project is
      stored under its own id, and each stored project is listed. */
  lemma ListIsExactlyTheStore(st: Store)
    requires Valid(st)
    ensures var ps := ListProjects(st).response.body.projects;
      && (forall p :: p in ps ==> p.id in st.docs && st.docs[p.id] == p)
      && (forall k :: k in st.docs ==> st.docs[k] in ps)
  {
  }

  /** The tasks a `POST /projects` body brings along, cast to subdocuments. */
  function InitialTasks(b: ProjectBody): (ts: seq<Task>)
    ensures b.tasks.None? ==> ts == []
    ensures b.tasks.Some? ==> |ts| == |b.tasks.value|
    ensures b.tasks.Some? ==> forall i :: 0 <= i < |ts| ==> ts[i] == CastTask(b.tasks.value[i])
  {
    match b.tasks
    case None => []
    case Some(bs) => seq(|bs|, i requires 0 <= i < |bs| => CastTask(bs[i]))
  }

  /** `POST /projects`. A falsy name is refused with 400 before anything is
      built; otherwise the document is built from the whole body and saved,
      and a body task without a name fails validation on save (500). */
  function CreateProject(st: Store, b: ProjectBody, newId: Id): (o: Outcome)
    requires Valid(st) && FreshFor(st, newId)
    ensures o.response.status in {201, 400, 500}
    ensures o.response.status == 400 <==> !Truthy(b.name)
    ensures o.response.status == 400 ==> o.response.body == Error(ProjectNameRequired)
    ensures o.response.status == 500 <==>
      Truthy(b.name) && exists i :: 0 <= i < |InitialTasks(b)| && !ValidTask(InitialTasks(b)[i])
    ensures o.response.status == 500 ==> o.response.body == Error(InternalServerError)
    ensures o.response.status != 201 ==> o.store == st
    ensures o.response.status == 201 ==>
      && o.response.body.One?
      && var p := o.response.body.project;
      && p == Project(newId, b.name.s, InitialTasks(b))
      && o.store.docs == st.docs[newId := p]
      && o.store.order == st.order + [newId]
      && |o.store.docs| == |st.docs| + 1
    ensures Valid(o.store)
  {
    if !Truthy(b.name) then
      Outcome(Response(400, Error(ProjectNameRequired)), st)
    else
      var p := Project(newId, b.name.s, InitialTasks(b));
      if !ValidProject(p) then
        Outcome(Response(500, Error(InternalServerError)), st)
      else
        var st' := Store(st.order + [newId], st.docs[newId := p]);
        assert newId !in st.order;
        Outcome(Response(201, One(p)), st')
  }

  /** `POST /projects/:id/tasks`. The name is checked before the lookup; an
      unknown id is 404; otherwise the cast task is appended and the updated
      parent returned with 201. */
  function AddTask(st: Store, id: Id, b: TaskBody): (o: Outcome)
    requires Valid(st)
    ensures o.response.status in {201, 400, 404}
    ensures o.response.status == 400 <==> !Truthy(b.name)
    ensures o.response.status == 400 ==> o.response.body == Error(TaskNameRequired)
    ensures o.response.status == 404 <==> Truthy(b.name) && id !in st.docs
    ensures o.response.status == 404 ==> o.response.body == Error(ProjectNotFound)
    ensures o.response.status != 201 ==> o.store == st
    ensures o.response.status == 201 ==>
      && id in st.docs && o.response.body.One?
      && var p' := o.response.body.project;
      && o.store.order == st.order
      && o.store.docs.Keys == st.docs.Keys
      && o.store.docs[id] == p'
      && p'.id == id && p'.name == st.docs[id].name
      && |p'.tasks| == |st.docs[id].tasks| + 1
      && p'.tasks[..|st.docs[id].tasks|] == st.docs[id].tasks
      && p'.tasks[|st.docs[id].tasks|] == CastTask(b)
      && (forall k :: k in st.docs && k != id ==> o.store.docs[k] == st.docs[k])
    ensures Valid(o.store)
  {
    if !Truthy(b.name) then
      Outcome(Response(400, Error(TaskNameRequired)), st)
    else if id !in st.docs then
      Outcome(Response(404, Error(ProjectNotFound)), st)
    else
      var p := st.docs[id];
      var p' := p.(tasks := p.tasks + [CastTask(b)]);
      assert ValidProject(p');
      Outcome(Response(201, One(p')), Store(st.order, st.docs[id := p']))
  }

  /** The task a successful `POST /projects/:id/tasks` stores: its status is
      `todo` when the field is absent, unset when `null` was sent, and exactly
      the string sent otherwise; each
      optional field stores the string sent, and nothing otherwise. */
  lemma AddedTaskFields(st: Store, id: Id, b: TaskBody)
    requires Valid(st)
    requires AddTask(st, id, b).response.status == 201
    ensures var p' := AddTask(st, id, b).response.body.project;
      var t := p'.tasks[|p'.tasks| - 1];
      && t.name == b.name.s
      && (b.status.Missing? ==> t.status == Some(DefaultStatus))
      && (b.status.Null? ==> t.status == None)
      && (b.status.Text? ==> t.status == Some(b.status.s))
      && (t.assignedTo == if b.assignedTo.Text? then Some(b.assignedTo.s) else None)
      && (t.link == if b.link.Text? then Some(b.link.s) else None)
      && (t.image == if b.image.Text? then Some(b.image.s) else None)
  {
  }

  /** The router: one request against the collection. `newId` is the id the
      oracle would hand out if the request creates a document. The pattern
      `/projects/:id/tasks` needs a non-empty `:id`, so `POST /projects//tasks`
      never reaches the handler: Express answers it with its own 404. */
  function Handle(st: Store, req: Request, newId: Id): (o: Outcome)
    requires Valid(st) && FreshFor(st, newId)
    ensures Valid(o.store)
    ensures o.response.status in {200, 201, 400, 404, 500}
    ensures req.GetProjects? ==> o == ListProjects(st) && o.store == st
    ensures o.store.docs.Keys == st.docs.Keys || o.store.docs.Keys == st.docs.Keys + {newId}
    ensures req.PostTask? && req.id == "" ==> o == Outcome(Response(404, NoRoute), st)
    ensures req.PostTask? && req.id != "" ==> o == AddTask(st, req.id, req.taskBody)
    ensures req.PostProject? ==> o == CreateProject(st, req.projectBody, newId)
  {
    match req
    case GetProjects => ListProjects(st)
    case PostProject(b) => CreateProject(st, b, newId)
    case PostTask(id, b) =>
      if id == "" then Outcome(Response(404, NoRoute), st) else AddTask(st, id, b)
  }

  /** The empty collection the server starts from. */
  lemma EmptyStoreValid()
    ensures Valid(Store([], map[]))
  {
  }

  /** No route ever removes a project or changes a stored project's name:
      the collection only grows, and documents only gain tasks at the end. */
  lemma HandleOnlyGrows(st: Store, req: Request, newId: Id, k: Id)
    requires Valid(st) && FreshFor(st, newId)
    requires k in st.docs
    ensures var st' := Handle(st, req, newId).store;
      && k in st'.docs
      && st'.docs[k].name == st.docs[k].name
      && |st'.docs[k].tasks| >= |st.docs[k].tasks|
      && st'.docs[k].tasks[..|st.docs[k].tasks|] == st.docs[k].tasks
  {
    var ts := st.docs[k].tasks;
    assert ts[..|ts|] == ts;
    match req
    case GetProjects =>
    case PostProject(b) =>
      var o := CreateProject(st, b, newId);
      assert o.response.status == 201 ==> o.store.docs[k] == st.docs[k];
    case PostTask(id, b) =>
      if id != "" {
        var o := AddTask(st, id, b);
        assert o.response.status == 201 && id == k ==> o.store.docs[k].tasks[..|ts|] == ts;
      }
  }
}
